=== FILE: README.md ===
# Shared-memory image client: packet framing, validation and dispatch

A model of the reading side of `PxSHMImageClient`, the component of the PIXHAWK
MAVLink middleware through which a process receives camera images that a camera
driver publishes into shared memory.

A frame on the shared-memory transport is two packets:

- a **probe packet** whose first four bytes are the camera type
  (`PxSHM::CameraType`), read by `readCameraType`;
- a **data packet** in one of two layouts, read by the two `readImage` overloads:
  - single image: tag, cols, rows, step, type (five 32-bit fields, 20 bytes), then
    `rows * step` pixel bytes;
  - dual image: tag, cols, rows, step, type, step2, type2 (28 bytes), then
    `rows * step` bytes of the first image and `rows * step2` of the second.

The three frame readers `readMonoImage`, `readStereoImage` and `readKinectImage`
first check that the MAVLink message is an `IMAGE_AVAILABLE` notification and that
packets are waiting, then probe, filter on the camera type, and decode. When the
client was initialised with `subscribeLatest`, they go round again while packets
remain, so the caller gets the newest frame queued.

The project's modules:

| file | module | contents |
|---|---|---|
| `wrappers.dfy` | `Wrappers` | `Option`, standing for the source's `bool` result plus output parameter |
| `bytes.dfy` | `Bytes` | bytes, 32-bit integer types, C++ `int`/`unsigned` conversions, little-endian field reads |
| `transport.dfy` | `Transport` | the packet queue: `bytesWaiting` and `readDataPacket` |
| `layout.dfy` | `Layout` | both data-packet layouts, each with an as-written decoder and an exact decoder |
| `layout_properties.dfy` | `LayoutProperties` | producer-side encoders, round trips, tag independence, bounds, the wrap-around counterexamples |
| `envelope.dfy` | `Envelope` | the notification message, the protocol constants, the message-id guard of the metadata getters |
| `readers.dfy` | `FrameReaders` | `readCameraType`, the drain loop, the three readers, and the loop as a method |
| `readers_properties.dfy` | `FrameReaderProperties` | the camera-type filter, one frame per call, draining to the newest frame, end-to-end results over published frames |

Each `readImage` overload has two decoders:

- **As written** (`Layout.DecodeSingleAsWritten`, `Layout.DecodeDualAsWritten`).
  These evaluate the length test the way the C++ expression does. `rows` is an
  `int` and `step` a `uint32_t`, so `rows` is converted to unsigned and the sum is
  taken modulo 2^32. They return the view the source would construct over its
  scratch buffer: dimensions, stride and start offset.
- **Exact** (`Layout.DecodeSingle`, `Layout.DecodeDual`). These perform the
  test in exact arithmetic with `rows` kept signed, and return owned images holding the packet's bytes. The
  frame readers use these; see "## Findings".

## Model

| member | source | states |
|---|---|---|
| Bytes.AsInt32 | src/interface/shared_mem/PxSHMImageClient.cc:356-359 | a 32-bit field copied into an `int` is the unsigned value, or that value minus 2^32; it is negative exactly when the top bit is set |
| Bytes.AsUint32 | src/interface/shared_mem/PxSHMImageClient.cc:361 | the conversion of `rows` to unsigned in `rows * step` adds 2^32 to a negative value and inverts AsInt32 |
| Bytes.LoadStoredWords | src/interface/shared_mem/PxSHMImageClient.cc:356-359 | every 32-bit field a producer lays out reads back at its offset as the value written, whatever bytes follow |
| Transport.Channel.ReadDataPacket | src/interface/shared_mem/PxSHMImageClient.cc:346 | a read yields the oldest packet and removes exactly it from the queue; on an empty queue it yields nothing and changes nothing |
| FrameReaders.ReadCameraType | src/interface/shared_mem/PxSHMImageClient.cc:330-341 | consumes exactly one packet; succeeds exactly when that packet has at least 4 bytes; the camera type is its first four bytes, with no check that it is a known type |
| Layout.DecodeSingleAsWritten | src/interface/shared_mem/PxSHMImageClient.cc:346-367 | accepts exactly when the length exceeds 20 and equals `20 + rows * step` modulo 2^32 (rows as unsigned), with the fields at offsets 4, 8, 12 and 16; the view has the header's dimensions and starts at offset 20 |
| Layout.DecodeDualAsWritten | src/interface/shared_mem/PxSHMImageClient.cc:376-402 | accepts exactly when the length exceeds 28 and equals `28 + rows * step + rows * step2` modulo 2^32; both views share rows and cols; the second starts at `28 + rows * step` modulo 2^32 |
| Layout.DecodeSingle | src/interface/shared_mem/PxSHMImageClient.cc:344-371 | refuses every packet of at most 20 bytes; accepts exactly when the length is `20 + rows * step` in exact arithmetic; the image has the header's rows (then positive), cols, step and type, and its pixels are the packet's bytes from offset 20 to the end, `rows * step` of them |
| Layout.DecodeDual | src/interface/shared_mem/PxSHMImageClient.cc:374-406 | refuses every packet of at most 28 bytes; accepts exactly when the length is `28 + rows * step + rows * step2`; both images share rows (positive) and cols; the first is the `rows * step` bytes from offset 28, the second the `rows * step2` bytes after them, ending the packet |
| LayoutProperties.SingleHeaderRoundTrip | src/interface/shared_mem/PxSHMImageClient.cc:356-359 | the single-image header a producer writes parses back to the image's cols, rows, step and type |
| LayoutProperties.SingleRoundTrip | src/interface/shared_mem/PxSHMImageClient.cc:344-371 | decoding the packet a producer writes for any image that fits the layout gives back that image |
| LayoutProperties.DualHeaderRoundTrip | src/interface/shared_mem/PxSHMImageClient.cc:386-391 | the dual-image header a producer writes parses back to both images' fields |
| LayoutProperties.DualRoundTrip | src/interface/shared_mem/PxSHMImageClient.cc:374-406 | decoding the packet a producer writes for any image pair that fits the layout gives back both images |
| LayoutProperties.SingleIgnoresTag | src/interface/shared_mem/PxSHMImageClient.cc:355 | replacing the four tag bytes changes the outcome of neither single-image decoder: the tag is not re-checked |
| LayoutProperties.DualIgnoresTag | src/interface/shared_mem/PxSHMImageClient.cc:385 | replacing the four tag bytes changes the outcome of neither dual-image decoder |
| LayoutProperties.SingleAsWrittenInBounds | src/interface/shared_mem/PxSHMImageClient.cc:361-367 | when `rows` is non-negative and `20 + rows * step` does not wrap, a packet the as-written test accepts ends exactly where the view's pixels end |
| LayoutProperties.DualAsWrittenInBounds | src/interface/shared_mem/PxSHMImageClient.cc:393-402 | when `rows` is non-negative and the dual sum does not wrap, the first view ends where the second starts and the second ends at the packet's end |
| LayoutProperties.SingleExactRefinesAsWritten | src/interface/shared_mem/PxSHMImageClient.cc:361 | whatever the exact single-image test accepts, the as-written test accepts with the same dimensions and a view ending at the packet's end; conversely, with non-negative rows and no wrap, the as-written test's acceptance implies the exact one's |
| LayoutProperties.DualExactRefinesAsWritten | src/interface/shared_mem/PxSHMImageClient.cc:393 | the same relation for the dual-image tests, with the second view starting right after the first image's bytes |
| LayoutProperties.SingleWrapAccepted | src/interface/shared_mem/PxSHMImageClient.cc:361-367 | a 21-byte packet declaring 641 rows of 6700417 bytes passes the as-written test, its view ends 2^32 bytes past the packet's end, and the exact test refuses it |
| LayoutProperties.DualWrapAccepted | src/interface/shared_mem/PxSHMImageClient.cc:393-402 | a 29-byte packet declaring 641 rows with strides 6700417 and 0 passes the as-written dual test, its first view ends 2^32 bytes past the packet's end, and the exact test refuses it |
| LayoutProperties.SingleNegativeRowsAccepted | src/interface/shared_mem/PxSHMImageClient.cc:361-367 | a packet of 2^31 + 20 bytes declaring -2^31 rows of one byte passes the as-written test, because `rows` is converted to unsigned; the view it yields has negative rows, and the exact test refuses the packet |
| LayoutProperties.DualNegativeRowsAccepted | src/interface/shared_mem/PxSHMImageClient.cc:393-402 | a packet of 2^31 + 28 bytes declaring -2^31 rows with strides 1 and 0 passes the as-written dual test with views of negative rows; the exact test refuses it |
| Envelope.GettersGuarded | src/interface/shared_mem/PxSHMImageClient.cc:57-216 | every metadata getter yields its sentinel (0, `-1` as unsigned, false) for a message other than `IMAGE_AVAILABLE`, and the payload field for an image notification |
| FrameReaders.Accepts | src/interface/shared_mem/PxSHMImageClient.cc:240-243 | each reader accepts exactly the camera types it lists: mono `CAMERA_MONO_8` and `CAMERA_MONO_24` (here), stereo `CAMERA_STEREO_8` and `CAMERA_STEREO_24` (:277-280), Kinect `CAMERA_KINECT` alone (:314-317) |
| FrameReaders.Decode | src/interface/shared_mem/PxSHMImageClient.cc:245-248 | the mono reader decodes its data packet with the single-image layout (here) and the stereo and Kinect readers with the dual one (:282-285, :319-322); a decoded frame is a single image exactly for the mono reader, and it holds exactly the image, or the pair of images, that the layout's decoder returns |
| FrameReaders.Drain | src/interface/shared_mem/PxSHMImageClient.cc:232-250 | each pass consumes packets from the front of the queue; without `latest` a success consumes exactly the probe and data packets and returns the data packet's decoding; with `latest` a success leaves the queue empty |
| FrameReaders.ReadFrame | src/interface/shared_mem/PxSHMImageClient.cc:221-230 | a message other than `IMAGE_AVAILABLE`, or an empty queue, makes a reader fail without touching the transport; no reader changes `subscribeLatest` |
| FrameReaders.ReadMonoImage | src/interface/shared_mem/PxSHMImageClient.cc:219-253 | the mono reader's result and transport are the mono drain's, its image the single-image frame |
| FrameReaders.ReadStereoImage | src/interface/shared_mem/PxSHMImageClient.cc:256-290 | the stereo reader's result and transport are the stereo drain's, its left and right images the dual frame's |
| FrameReaders.ReadKinectImage | src/interface/shared_mem/PxSHMImageClient.cc:293-327 | the Kinect reader's result and transport are the Kinect drain's, its Bayer and depth images the dual frame's |
| FrameReaders.ReadFrameLoop | src/interface/shared_mem/PxSHMImageClient.cc:219-253 | the reader written as early returns and a do-while loop computes the same result and transport as ReadFrame |
| FrameReaderProperties.ModalitiesExclusive | src/interface/shared_mem/PxSHMImageClient.cc:240-243 | with distinct camera-type values, no camera type is accepted by two different readers: the mono filter here, the stereo filter at :277-280 and the Kinect filter at :314-317 accept disjoint sets |
| FrameReaderProperties.ForeignTypeRejected | src/interface/shared_mem/PxSHMImageClient.cc:240-243 | a camera type the reader does not accept makes the call fail after consuming the probe packet and nothing else |
| FrameReaderProperties.OtherReadersTypeRejected | src/interface/shared_mem/PxSHMImageClient.cc:277-280 | a reader handed another reader's camera type fails after consuming only the probe packet |
| FrameReaderProperties.ReadOnce | src/interface/shared_mem/PxSHMImageClient.cc:232-250 | without `subscribeLatest` a call succeeds exactly when the first two packets are an accepted probe and a decodable data packet; it then returns that frame and leaves the rest of the queue |
| FrameReaderProperties.DrainLatest | src/interface/shared_mem/PxSHMImageClient.cc:232-250 | with `latest` set the drain succeeds exactly when the whole queue is a sequence of accepted, decodable frames; it then returns the last data packet's decoding and empties the queue |
| FrameReaderProperties.ReadLatest | src/interface/shared_mem/PxSHMImageClient.cc:219-253 | with `subscribeLatest` a reader succeeds exactly when the queue is non-empty and well framed, returns the newest frame and leaves nothing queued |
| FrameReaderProperties.DecodePublished | src/interface/shared_mem/PxSHMImageClient.cc:330-406 | a producer's probe packet passes the camera-type filter when read by `readCameraType` (:330-341), and its data packet decodes back to the frame through the single-image (:344-371) or dual-image (:374-406) layout |
| FrameReaderProperties.PublishedWellFramed | src/interface/shared_mem/PxSHMImageClient.cc:232-250 | the packets a producer queues for any sequence of accepted frames form a well-framed queue |
| FrameReaderProperties.PublishedLast | src/interface/shared_mem/PxSHMImageClient.cc:250 | the last data packet a producer queues decodes to the last frame published |
| FrameReaderProperties.LatestReturnsNewest | src/interface/shared_mem/PxSHMImageClient.cc:250-252 | with `subscribeLatest`, a reader facing N published frames returns the N-th and leaves the queue empty |
| FrameReaderProperties.OnceReturnsOldest | src/interface/shared_mem/PxSHMImageClient.cc:232-252 | without `subscribeLatest`, a reader facing N published frames returns the first and leaves the other N-1 queued, in order |

## Left out

- `init` and the constructor (src/interface/shared_mem/PxSHMImageClient.cc:36-55): the shared-memory segment's lifecycle and synchronisation with the producer. The transport is a queue of packets; `PxSHM` is not part of this model.
- `readDataPacket` on an empty queue: the transport's behaviour is not visible, so it is modelled as yielding an empty packet and leaving the queue unchanged. The readers only reach it after `bytesWaiting`, or for a data packet after a probe, where it makes the decode fail.
- The maximum length 4 passed by `readCameraType` (:332): whether the transport truncates or copies the whole packet, the probe fails exactly when the packet has fewer than 4 bytes and reads the same four bytes otherwise. The model takes one read to consume one whole packet.
- The numeric values of `MAVLINK_MSG_ID_IMAGE_AVAILABLE` and of the `PxSHM::CameraType` enumerants are defined in headers outside this model; they are parameters (`Envelope.Protocol`). Mutual exclusion of the readers assumes the enumerants are distinct.
- `mavlink_msg_image_available_decode` is not part of this model: the payload is taken as already decoded. The float fields written by `getRollPitch`, `getRollPitchYaw`, `getLocalHeight` and `getGPS` are left out; only their boolean result is modelled (`Envelope.GetFloatFields`).
- `cv::Mat` construction and `copyTo` (:367-368, :399-403) belong to OpenCV. An image is its dimensions, type, stride and byte slice. `copyTo` may compact rows to a different stride; this is not modelled, nor is the relation between cols, element size and step.
- The 1 MiB `data.reserve` (:47) and the scratch buffer's capacity: allocation detail.
- What the output `cv::Mat` holds after a failed call (an earlier iteration's frame may already be copied into it when a later iteration fails). The model returns `None` on failure.
- Host byte order: fields are read little-endian, as `memcpy` does on the x86 and ARM targets.
- Integer widths: `int` is 32-bit two's complement; the packet length fits a `uint32_t`.
- FrameReaders.Drain: the readers decode with the exact-arithmetic decoders, not the as-written ones, so for packets whose length sum wraps modulo 2^32, and for packets declaring negative rows whose unsigned sum fits (at least 2^31 + 20 bytes), their results are the corrected behaviour (see "## Findings").
- FrameReaders.Decode: this is where the exact-arithmetic decoders replace the length tests of :361 and :393. A data packet whose length sum wraps modulo 2^32 is refused here, and so is one declaring negative rows, which :361 and :393 accept whenever the unsigned sum fits (a packet of at least 2^31 + 20, or 2^31 + 28, bytes); the source accepts both and then constructs views outside its buffer or with negative rows (see "## Findings").
- Packets of exactly 20 or 28 bytes: such a packet is refused (`<=` at :347 and :377), so an image with zero rows cannot be transferred; the model follows the code.

## Findings

| source | as written | input that shows it | evidently intended | confidence | as-written member | corrected member |
|---|---|---|---|---|---|---|
| src/interface/shared_mem/PxSHMImageClient.cc:361 | `dataLength != 20 + rows * step` is evaluated in 32-bit unsigned arithmetic, so the sum wraps modulo 2^32 | a 21-byte packet with rows = 641 and step = 6700417; 641 * 6700417 = 2^32 + 1, so the sum wraps to 21 and the packet is accepted, with a view ending 2^32 bytes past the packet's end | accept only packets that hold exactly the 20 header bytes plus `rows * step` pixel bytes | not executed | LayoutProperties.SingleWrapAccepted | Layout.DecodeSingle, LayoutProperties.SingleRoundTrip |
| src/interface/shared_mem/PxSHMImageClient.cc:393 | `dataLength != 28 + rows * step + rows * step2` wraps the same way, and the second image's start `28 + rows * step` (:402) wraps too | a 29-byte packet with rows = 641, step = 6700417 and step2 = 0 is accepted; the first view ends 2^32 bytes past the packet's end | accept only packets holding exactly the 28 header bytes and both images' bytes, with the second image after the first | not executed | LayoutProperties.DualWrapAccepted | Layout.DecodeDual, LayoutProperties.DualRoundTrip |
| src/interface/shared_mem/PxSHMImageClient.cc:361 | `rows` is an `int` converted to unsigned in `20 + rows * step` (and in `28 + rows * step + rows * step2` at :393), so a negative `rows` passes the test whenever the unsigned sum fits | a packet of 2^31 + 20 bytes with rows = -2^31 and step = 1: the unsigned sum is 2^31 + 20, equal to the length, so the packet is accepted and `cv::Mat` is constructed with -2^31 rows (dual: 2^31 + 28 bytes with step = 1 and step2 = 0) | refuse packets declaring negative rows | not executed | LayoutProperties.SingleNegativeRowsAccepted, LayoutProperties.DualNegativeRowsAccepted | Layout.DecodeSingle, Layout.DecodeDual |

=== FILE: bytes.dfy ===
/**
 * Fixed-width integers and the 4-byte field reads the image client performs with
 * `memcpy` into `int` and `uint32_t`. The host byte order is taken to be
 * little-endian; C++'s implicit conversion between `int` and `unsigned int`
 * (two's complement, modulo 2^32) is written out explicitly.
 */
module Bytes {

  newtype byte = b: int | 0 <= b < 0x100

  const U32_MOD: nat := 0x1_0000_0000
  const I32_MIN: int := -0x8000_0000
  const I32_LIMIT: int := 0x8000_0000

  /** C++ `uint32_t`. */
  type uint32 = x: int | 0 <= x < 0x1_0000_0000

  /** C++ `int` on the target (32-bit, two's complement). */
  type int32 = x: int | -0x8000_0000 <= x < 0x8000_0000

  /** C++ `uint64_t`. */
  type uint64 = x: int | 0 <= x < 0x1_0000_0000_0000_0000

  /** The value of the four bytes at `off`, least significant first. */
  function LoadU32(s: seq<byte>, off: nat): (v: uint32)
    requires off + 4 <= |s|
  {
    s[off] as int + 0x100 * s[off + 1] as int + 0x1_0000 * s[off + 2] as int
      + 0x100_0000 * s[off + 3] as int
  }

  /** The four bytes that represent `v`, least significant first. */
  function StoreU32(v: uint32): (s: seq<byte>)
    ensures |s| == 4
  {
    [(v % 0x100) as byte, (v / 0x100 % 0x100) as byte,
     (v / 0x1_0000 % 0x100) as byte, (v / 0x100_0000) as byte]
  }

  /** Reinterprets 32 bits as a C++ `int` (two's complement). */
  function AsInt32(u: uint32): (i: int32)
    ensures i == u || i == u - U32_MOD
    ensures i < 0 <==> u >= I32_LIMIT
  {
    if u < I32_LIMIT then u else u - U32_MOD
  }

  /** The C++ conversion of an `int` to `unsigned int`: the value modulo 2^32. */
  function AsUint32(i: int32): (u: uint32)
    ensures u == i || u == i + U32_MOD
    ensures AsInt32(u) == i
  {
    if i >= 0 then i else i + U32_MOD
  }

  /** A signed 32-bit field read by `memcpy` into an `int`. */
  function LoadI32(s: seq<byte>, off: nat): int32
    requires off + 4 <= |s|
  {
    AsInt32(LoadU32(s, off))
  }

  /** Reading back a stored word gives the word. */
  lemma LoadStoredWord(v: uint32)
    ensures LoadU32(StoreU32(v), 0) == v
  {
    var q1, q2, q3 := v / 0x100, v / 0x1_0000, v / 0x100_0000;
    assert v == v % 0x100 + 0x100 * q1;
    assert q1 == q1 % 0x100 + 0x100 * q2;
    assert q2 == q2 % 0x100 + 0x100 * q3;
    assert q2 == v / 0x100 / 0x100 && q3 == q2 / 0x100;
  }

  /** Reading back a stored word gives the word, wherever it sits in a buffer. */
  lemma LoadStoreU32(pre: seq<byte>, v: uint32, post: seq<byte>)
    ensures LoadU32(pre + StoreU32(v) + post, |pre|) == v
  {
    var s := pre + StoreU32(v) + post;
    var w := StoreU32(v);
    assert s[|pre|] == w[0] && s[|pre| + 1] == w[1] && s[|pre| + 2] == w[2] && s[|pre| + 3] == w[3];
    assert LoadU32(s, |pre|) == LoadU32(w, 0);
    LoadStoredWord(v);
  }

  /** Words laid out one after another. */
  function StoreWords(ws: seq<uint32>): (s: seq<byte>)
    ensures |s| == 4 * |ws|
  {
    if ws == [] then [] else StoreU32(ws[0]) + StoreWords(ws[1..])
  }

  /** The k-th word of a run of stored words reads back as itself, whatever follows the run. */
  lemma {:induction false} LoadStoredWords(ws: seq<uint32>, rest: seq<byte>, k: nat)
    requires k < |ws|
    ensures LoadU32(StoreWords(ws) + rest, 4 * k) == ws[k]
    decreases k
  {
    var s := StoreWords(ws) + rest;
    var t := StoreWords(ws[1..]) + rest;
    assert s == StoreU32(ws[0]) + t;
    if k == 0 {
      LoadStoreU32([], ws[0], t);
      assert [] + StoreU32(ws[0]) + t == s;
    } else {
      LoadStoredWords(ws[1..], rest, k - 1);
      assert s[4 * k] == t[4 * (k - 1)];
      assert s[4 * k + 1] == t[4 * (k - 1) + 1];
      assert s[4 * k + 2] == t[4 * (k - 1) + 2];
      assert s[4 * k + 3] == t[4 * (k - 1) + 3];
    }
  }
}

=== FILE: envelope.dfy ===
/**
 * The MAVLink notification that announces an image, and the constants the image
 * client compares against. The numeric values of the message id and of the camera
 * type enumerants are defined in headers outside this model, so they are carried
 * in a `Protocol` record rather than fixed here. The message's payload is taken as
 * already decoded; only its integer fields are modelled.
 */
module Envelope {
  import opened Bytes

  /** The integer fields of `mavlink_image_available_t`. */
  datatype ImageAvailable = ImageAvailable(timestamp: uint64, validUntil: uint64, camId: uint64, camNo: uint32)

  datatype Message = Message(msgid: int, payload: ImageAvailable)

  /** `MAVLINK_MSG_ID_IMAGE_AVAILABLE` and the `PxSHM::CameraType` enumerants. */
  datatype Protocol = Protocol(
    imageAvailableId: int,
    mono8: uint32,
    mono24: uint32,
    stereo8: uint32,
    stereo24: uint32,
    kinect: uint32)
  {
    /** The camera type enumerants are pairwise distinct. */
    predicate DistinctTypes() {
      && mono8 != mono24 && mono8 != stereo8 && mono8 != stereo24 && mono8 != kinect
      && mono24 != stereo8 && mono24 != stereo24 && mono24 != kinect
      && stereo8 != stereo24 && stereo8 != kinect
      && stereo24 != kinect
    }
  }

  predicate IsImageAvailable(proto: Protocol, msg: Message) {
    msg.msgid == proto.imageAvailableId
  }

  function GetTimestamp(proto: Protocol, msg: Message): uint64 {
    if !IsImageAvailable(proto, msg) then 0 else msg.payload.timestamp
  }

  function GetValidUntil(proto: Protocol, msg: Message): uint64 {
    if !IsImageAvailable(proto, msg) then 0 else msg.payload.validUntil
  }

  function GetCameraId(proto: Protocol, msg: Message): uint64 {
    if !IsImageAvailable(proto, msg) then 0 else msg.payload.camId
  }

  /** Returns `-1` through a `uint32_t` result type for any other message. */
  function GetCameraNo(proto: Protocol, msg: Message): uint32 {
    if !IsImageAvailable(proto, msg) then AsUint32(-1) else msg.payload.camNo
  }

  /**
   * The boolean result shared by `getRollPitch`, `getRollPitchYaw`, `getLocalHeight`
   * and `getGPS`; the floating-point values they also write are not modelled.
   */
  function GetFloatFields(proto: Protocol, msg: Message): bool {
    IsImageAvailable(proto, msg)
  }

  /**
   * Every getter is guarded by the message id: for another message it yields its
   * sentinel (0, `-1` as unsigned, false), for an image notification the payload field.
   */
  lemma GettersGuarded(proto: Protocol, msg: Message)
    ensures !IsImageAvailable(proto, msg) ==>
      && GetTimestamp(proto, msg) == 0
      && GetValidUntil(proto, msg) == 0
      && GetCameraId(proto, msg) == 0
      && GetCameraNo(proto, msg) == 0xFFFF_FFFF
      && !GetFloatFields(proto, msg)
    ensures IsImageAvailable(proto, msg) ==>
      && GetTimestamp(proto, msg) == msg.payload.timestamp
      && GetValidUntil(proto, msg) == msg.payload.validUntil
      && GetCameraId(proto, msg) == msg.payload.camId
      && GetCameraNo(proto, msg) == msg.payload.camNo
      && GetFloatFields(proto, msg)
  {
  }
}

=== FILE: layout.dfy ===
/**
 * The two packet layouts of the image client and their decoders.
 *
 * Single-image packet: tag@0, cols@4, rows@8, step@12, type@16, then rows*step pixel bytes.
 * Dual-image packet:   tag@0, cols@4, rows@8, step@12, type@16, step2@20, type2@24,
 *                      then rows*step bytes of the first image and rows*step2 of the second.
 *
 * Each layout has two decoders. `…AsWritten` performs the length test exactly as the
 * C++ expression evaluates it (`rows` converted to unsigned, sum modulo 2^32) and yields
 * the view the source would construct over the scratch buffer. The plain decoder performs
 * the test in exact arithmetic, so an accepted packet always holds the bytes it declares,
 * and yields owned images; it is the one the frame readers use.
 */
module Layout {
  import opened Bytes
  import opened Wrappers
  import opened Transport

  /** Tag plus cols, rows, step and type. */
  const SINGLE_HEADER_SIZE: nat := 20
  /** Tag plus cols, rows, step, type, step2 and type2. */
  const DUAL_HEADER_SIZE: nat := 28

  /** An owned image: what `copyTo` leaves in the caller's `cv::Mat`. */
  datatype Image = Image(rows: int32, cols: int32, format: int32, step: uint32, pixels: seq<byte>)

  /** A `cv::Mat` header over the scratch buffer: `rows` rows of `step` bytes from `offset`. */
  datatype View = View(rows: int32, cols: int32, format: int32, step: uint32, offset: int) {
    /** One past the last byte the view covers, in exact arithmetic. */
    function End(): int {
      offset + AsUint32(rows) * step
    }
  }

  datatype SingleHeader = SingleHeader(cols: int32, rows: int32, step: uint32, format: int32)

  datatype DualHeader =
    DualHeader(cols: int32, rows: int32, step: uint32, format: int32, step2: uint32, format2: int32)

  function ParseSingleHeader(p: seq<byte>): SingleHeader
    requires |p| >= SINGLE_HEADER_SIZE
  {
    SingleHeader(LoadI32(p, 4), LoadI32(p, 8), LoadU32(p, 12), LoadI32(p, 16))
  }

  function ParseDualHeader(p: seq<byte>): DualHeader
    requires |p| >= DUAL_HEADER_SIZE
  {
    DualHeader(LoadI32(p, 4), LoadI32(p, 8), LoadU32(p, 12), LoadI32(p, 16), LoadU32(p, 20), LoadI32(p, 24))
  }

  /** `rows * step` in C++: the signed operand is converted to unsigned and the product wraps. */
  function WrappedProduct(rows: int32, step: uint32): uint32 {
    AsUint32(rows) * step % U32_MOD
  }

  /** The sign of `rows * step` is the sign of `rows`, for a non-negative `step`. */
  lemma ProductSign(a: int, b: int)
    requires b >= 0
    ensures a >= 0 ==> a * b >= 0
    ensures a <= 0 ==> a * b <= 0
  {
  }

  // ---------------------------------------------------------------------------
  // The length tests as written

  /**
   * `readImage(img)` as written: a packet of at most 20 bytes is refused, then the
   * length must equal `20 + rows * step` evaluated modulo 2^32. The tag at offset 0
   * is not examined.
   */
  function DecodeSingleAsWritten(p: Packet): (r: Option<View>)
    ensures r.Some? <==>
      |p| > SINGLE_HEADER_SIZE
      && |p| == (SINGLE_HEADER_SIZE + WrappedProduct(LoadI32(p, 8), LoadU32(p, 12))) % U32_MOD
    ensures r.Some? ==>
      r.value == View(LoadI32(p, 8), LoadI32(p, 4), LoadI32(p, 16), LoadU32(p, 12), SINGLE_HEADER_SIZE)
  {
    if |p| <= SINGLE_HEADER_SIZE then None
    else
      var h := ParseSingleHeader(p);
      if |p| != (SINGLE_HEADER_SIZE + WrappedProduct(h.rows, h.step)) % U32_MOD then None
      else Some(View(h.rows, h.cols, h.format, h.step, SINGLE_HEADER_SIZE))
  }

  /**
   * `readImage(img, img2)` as written: a packet of at most 28 bytes is refused, then
   * the length must equal `28 + rows * step + rows * step2` modulo 2^32. The second
   * view starts at `28 + rows * step`, also computed modulo 2^32.
   */
  function DecodeDualAsWritten(p: Packet): (r: Option<(View, View)>)
    ensures r.Some? <==>
      |p| > DUAL_HEADER_SIZE
      && |p| == (DUAL_HEADER_SIZE + WrappedProduct(LoadI32(p, 8), LoadU32(p, 12))
                 + WrappedProduct(LoadI32(p, 8), LoadU32(p, 20))) % U32_MOD
    ensures r.Some? ==>
      && r.value.0 == View(LoadI32(p, 8), LoadI32(p, 4), LoadI32(p, 16), LoadU32(p, 12), DUAL_HEADER_SIZE)
      && r.value.1 == View(LoadI32(p, 8), LoadI32(p, 4), LoadI32(p, 24), LoadU32(p, 20),
                           (DUAL_HEADER_SIZE + WrappedProduct(LoadI32(p, 8), LoadU32(p, 12))) % U32_MOD)
  {
    if |p| <= DUAL_HEADER_SIZE then None
    else
      var h := ParseDualHeader(p);
      var first := WrappedProduct(h.rows, h.step);
      if |p| != (DUAL_HEADER_SIZE + first + WrappedProduct(h.rows, h.step2)) % U32_MOD then None
      else Some((View(h.rows, h.cols, h.format, h.step, DUAL_HEADER_SIZE),
                 View(h.rows, h.cols, h.format2, h.step2, (DUAL_HEADER_SIZE + first) % U32_MOD)))
  }

  // ---------------------------------------------------------------------------
  // The length tests in exact arithmetic

  /**
   * `readImage(img)` with the length test in exact arithmetic: the packet is
   * accepted exactly when it holds the 20 header bytes plus `rows * step` pixel
   * bytes, and the image is those pixel bytes with the header's dimensions.
   */
  function DecodeSingle(p: Packet): (r: Option<Image>)
    ensures |p| <= SINGLE_HEADER_SIZE ==> r.None?
    ensures r.Some? <==>
      |p| > SINGLE_HEADER_SIZE && |p| == SINGLE_HEADER_SIZE + LoadI32(p, 8) * LoadU32(p, 12)
    ensures r.Some? ==>
      && r.value.cols == LoadI32(p, 4)
      && r.value.rows == LoadI32(p, 8)
      && r.value.step == LoadU32(p, 12)
      && r.value.format == LoadI32(p, 16)
      && r.value.rows > 0
      && |r.value.pixels| == r.value.rows * r.value.step
      && r.value.pixels == p[SINGLE_HEADER_SIZE..]
  {
    if |p| <= SINGLE_HEADER_SIZE then None
    else
      var h := ParseSingleHeader(p);
      if |p| != SINGLE_HEADER_SIZE + h.rows * h.step then None
      else
        assert h.rows > 0 by {
          if h.rows <= 0 { ProductSign(h.rows, h.step); }
        }
        Some(Image(h.rows, h.cols, h.format, h.step, p[SINGLE_HEADER_SIZE..]))
  }

  /**
   * `readImage(img, img2)` with the length test in exact arithmetic: both images
   * share the header's rows and cols; the first is the `rows * step` bytes after
   * the header, the second the `rows * step2` bytes after those, ending the packet.
   */
  function DecodeDual(p: Packet): (r: Option<(Image, Image)>)
    ensures |p| <= DUAL_HEADER_SIZE ==> r.None?
    ensures r.Some? <==>
      && |p| > DUAL_HEADER_SIZE
      && |p| == DUAL_HEADER_SIZE + LoadI32(p, 8) * LoadU32(p, 12) + LoadI32(p, 8) * LoadU32(p, 20)
    ensures r.Some? ==>
      var (a, b) := r.value;
      && a.rows == b.rows == LoadI32(p, 8) > 0
      && a.cols == b.cols == LoadI32(p, 4)
      && a.step == LoadU32(p, 12) && a.format == LoadI32(p, 16)
      && b.step == LoadU32(p, 20) && b.format == LoadI32(p, 24)
      && |a.pixels| == a.rows * a.step
      && |b.pixels| == b.rows * b.step
      && a.pixels == p[DUAL_HEADER_SIZE .. DUAL_HEADER_SIZE + |a.pixels|]
      && b.pixels == p[DUAL_HEADER_SIZE + |a.pixels| ..]
  {
    if |p| <= DUAL_HEADER_SIZE then None
    else
      var h := ParseDualHeader(p);
      if |p| != DUAL_HEADER_SIZE + h.rows * h.step + h.rows * h.step2 then None
      else
        assert h.rows > 0 by {
          if h.rows <= 0 {
            ProductSign(h.rows, h.step);
            ProductSign(h.rows, h.step2);
          }
        }
        var split := DUAL_HEADER_SIZE + h.rows * h.step;
        assert h.rows * h.step >= 0 && h.rows * h.step2 >= 0 by {
          ProductSign(h.rows, h.step);
          ProductSign(h.rows, h.step2);
        }
        assert DUAL_HEADER_SIZE <= split <= |p|;
        Some((Image(h.rows, h.cols, h.format, h.step, p[DUAL_HEADER_SIZE..split]),
              Image(h.rows, h.cols, h.format2, h.step2, p[split..])))
  }
}

=== FILE: layout_properties.dfy ===
/**
 * Properties of the packet decoders: what the wrapped length test guarantees and
 * what it lets through, how it relates to the exact test, that the decoders never
 * look at the tag, and that they invert the producer's layout.
 */
module LayoutProperties {
  import opened Bytes
  import opened Wrappers
  import opened Transport
  import opened Layout

  // ---------------------------------------------------------------------------
  // The producer's side of the layouts, as a reference for the decoders

  /** A single image that fits the single-image layout: at least one pixel byte, `rows * step` of them. */
  predicate SingleEncodable(img: Image) {
    && |img.pixels| == img.rows * img.step
    && |img.pixels| > 0
    && SINGLE_HEADER_SIZE + |img.pixels| < U32_MOD
  }

  /** Two images that fit the dual-image layout: shared rows and cols, `rows * step` bytes each. */
  predicate DualEncodable(a: Image, b: Image) {
    && a.rows == b.rows
    && a.cols == b.cols
    && |a.pixels| == a.rows * a.step
    && |b.pixels| == b.rows * b.step
    && |a.pixels| + |b.pixels| > 0
    && DUAL_HEADER_SIZE + |a.pixels| + |b.pixels| < U32_MOD
  }

  /** The header words of a single-image packet: tag, cols, rows, step, type. */
  function SingleHeaderWords(tag: uint32, img: Image): seq<uint32> {
    [tag, AsUint32(img.cols), AsUint32(img.rows), img.step, AsUint32(img.format)]
  }

  /** The header words of a dual-image packet: tag, cols, rows, step, type, step2, type2. */
  function DualHeaderWords(tag: uint32, a: Image, b: Image): seq<uint32> {
    [tag, AsUint32(a.cols), AsUint32(a.rows), a.step, AsUint32(a.format), b.step, AsUint32(b.format)]
  }

  function EncodeSingle(tag: uint32, img: Image): (p: seq<byte>)
    ensures |p| == SINGLE_HEADER_SIZE + |img.pixels|
  {
    StoreWords(SingleHeaderWords(tag, img)) + img.pixels
  }

  function EncodeDual(tag: uint32, a: Image, b: Image): (p: seq<byte>)
    ensures |p| == DUAL_HEADER_SIZE + |a.pixels| + |b.pixels|
  {
    StoreWords(DualHeaderWords(tag, a, b)) + (a.pixels + b.pixels)
  }

  /** The header of a single-image packet the producer wrote reads back as the image's fields. */
  lemma SingleHeaderRoundTrip(tag: uint32, img: Image)
    ensures |EncodeSingle(tag, img)| >= SINGLE_HEADER_SIZE
    ensures ParseSingleHeader(EncodeSingle(tag, img)) == SingleHeader(img.cols, img.rows, img.step, img.format)
  {
    var ws := SingleHeaderWords(tag, img);
    LoadStoredWords(ws, img.pixels, 1);
    LoadStoredWords(ws, img.pixels, 2);
    LoadStoredWords(ws, img.pixels, 3);
    LoadStoredWords(ws, img.pixels, 4);
  }

  /** Decoding a single-image packet the producer wrote gives back the image. */
  lemma SingleRoundTrip(tag: uint32, img: Image)
    requires SingleEncodable(img)
    ensures var p := EncodeSingle(tag, img);
      |p| < U32_MOD && DecodeSingle(p) == Some(img)
  {
    var p := EncodeSingle(tag, img);
    SingleHeaderRoundTrip(tag, img);
    assert p[SINGLE_HEADER_SIZE..] == img.pixels;
  }

  /** The header of a dual-image packet the producer wrote reads back as the images' fields. */
  lemma DualHeaderRoundTrip(tag: uint32, a: Image, b: Image)
    ensures |EncodeDual(tag, a, b)| >= DUAL_HEADER_SIZE
    ensures ParseDualHeader(EncodeDual(tag, a, b)) == DualHeader(a.cols, a.rows, a.step, a.format, b.step, b.format)
  {
    var ws := DualHeaderWords(tag, a, b);
    var px := a.pixels + b.pixels;
    LoadStoredWords(ws, px, 1);
    LoadStoredWords(ws, px, 2);
    LoadStoredWords(ws, px, 3);
    LoadStoredWords(ws, px, 4);
    LoadStoredWords(ws, px, 5);
    LoadStoredWords(ws, px, 6);
  }

  /** Decoding a dual-image packet the producer wrote gives back both images. */
  lemma DualRoundTrip(tag: uint32, a: Image, b: Image)
    requires DualEncodable(a, b)
    ensures var p := EncodeDual(tag, a, b);
      |p| < U32_MOD && DecodeDual(p) == Some((a, b))
  {
    var p := EncodeDual(tag, a, b);
    DualHeaderRoundTrip(tag, a, b);
    var px := a.pixels + b.pixels;
    assert p[DUAL_HEADER_SIZE..] == px;
    assert p[DUAL_HEADER_SIZE .. DUAL_HEADER_SIZE + |a.pixels|] == a.pixels;
    assert p[DUAL_HEADER_SIZE + |a.pixels| ..] == b.pixels;
    var (a', b') := DecodeDual(p).value;
    assert a' == a;
  }

  // ---------------------------------------------------------------------------
  // The tag at offset 0 plays no part in decoding

  /** Replacing the tag bytes of a packet changes the outcome of neither single-image decoder. */
  lemma SingleIgnoresTag(p: Packet, tag: seq<byte>)
    requires |p| >= 4 && |tag| == 4
    ensures |tag + p[4..]| == |p|
    ensures DecodeSingleAsWritten(tag + p[4..]) == DecodeSingleAsWritten(p)
    ensures DecodeSingle(tag + p[4..]) == DecodeSingle(p)
  {
    var q := tag + p[4..];
    assert forall k | 4 <= k < |p| :: q[k] == p[k];
    if |p| >= SINGLE_HEADER_SIZE {
      assert ParseSingleHeader(q) == ParseSingleHeader(p);
      assert q[SINGLE_HEADER_SIZE..] == p[SINGLE_HEADER_SIZE..];
    }
  }

  /** Replacing the tag bytes of a packet changes the outcome of neither dual-image decoder. */
  lemma DualIgnoresTag(p: Packet, tag: seq<byte>)
    requires |p| >= 4 && |tag| == 4
    ensures |tag + p[4..]| == |p|
    ensures DecodeDualAsWritten(tag + p[4..]) == DecodeDualAsWritten(p)
    ensures DecodeDual(tag + p[4..]) == DecodeDual(p)
  {
    var q := tag + p[4..];
    assert forall k | 4 <= k < |p| :: q[k] == p[k];
    if |p| >= DUAL_HEADER_SIZE {
      assert LoadI32(q, 4) == LoadI32(p, 4) && LoadI32(q, 8) == LoadI32(p, 8);
      assert LoadU32(q, 12) == LoadU32(p, 12) && LoadI32(q, 16) == LoadI32(p, 16);
      assert LoadU32(q, 20) == LoadU32(p, 20) && LoadI32(q, 24) == LoadI32(p, 24);
      var h := ParseDualHeader(p);
      assert ParseDualHeader(q) == h;
      var split := DUAL_HEADER_SIZE + h.rows * h.step;
      if DUAL_HEADER_SIZE <= split <= |p| {
        assert q[DUAL_HEADER_SIZE..split] == p[DUAL_HEADER_SIZE..split];
        assert q[split..] == p[split..];
      }
    }
  }

  // ---------------------------------------------------------------------------
  // The wrapped length test against the exact one

  /**
   * The single-image sum `20 + rows * step` fits in 32 bits with `rows` non-negative, so the
   * unsigned conversion and the modulus both leave it as the mathematical sum.
   */
  predicate SingleNoWrap(p: Packet)
    requires |p| >= SINGLE_HEADER_SIZE
  {
    && LoadI32(p, 8) >= 0
    && SINGLE_HEADER_SIZE + AsUint32(LoadI32(p, 8)) * LoadU32(p, 12) < U32_MOD
  }

  /** The dual-image sum `28 + rows * step + rows * step2` fits in 32 bits with `rows` non-negative. */
  predicate DualNoWrap(p: Packet)
    requires |p| >= DUAL_HEADER_SIZE
  {
    && LoadI32(p, 8) >= 0
    && DUAL_HEADER_SIZE + AsUint32(LoadI32(p, 8)) * LoadU32(p, 12) + AsUint32(LoadI32(p, 8)) * LoadU32(p, 20) < U32_MOD
  }

  /** A product below 2^32 does not wrap. */
  lemma WrapOfSmall(rows: int32, step: uint32)
    requires AsUint32(rows) * step < U32_MOD
    ensures WrappedProduct(rows, step) == AsUint32(rows) * step
  {
    var x := AsUint32(rows) * step;
    ProductSign(AsUint32(rows), step);
    assert x % U32_MOD == x;
  }

  /** A sum below 2^32 is its own remainder. */
  lemma SmallSum(header: nat, product: nat)
    requires header + product < U32_MOD
    ensures (header + product) % U32_MOD == header + product
  {
  }

  /** When the sum does not wrap, a packet the wrapped test accepts holds exactly the bytes the view covers. */
  lemma SingleAsWrittenInBounds(p: Packet)
    requires DecodeSingleAsWritten(p).Some?
    requires SingleNoWrap(p)
    ensures DecodeSingleAsWritten(p).value.End() == |p|
  {
    var rows, step := LoadI32(p, 8), LoadU32(p, 12);
    WrapOfSmall(rows, step);
  }

  /** When the sums do not wrap, both views of an accepted dual packet lie inside it, back to back. */
  lemma DualAsWrittenInBounds(p: Packet)
    requires DecodeDualAsWritten(p).Some?
    requires DualNoWrap(p)
    ensures DecodeDualAsWritten(p).value.0.End() == DecodeDualAsWritten(p).value.1.offset
    ensures DecodeDualAsWritten(p).value.1.End() == |p|
  {
    var rows, step, step2 := LoadI32(p, 8), LoadU32(p, 12), LoadU32(p, 20);
    var u := AsUint32(rows);
    ProductSign(u, step);
    ProductSign(u, step2);
    WrapOfSmallSum(u * step, u * step2);
  }

  /** Two non-negative products whose sum with the header size stays below 2^32 do not wrap. */
  lemma WrapOfSmallSum(first: int, second: int)
    requires first >= 0 && second >= 0
    requires DUAL_HEADER_SIZE + first + second < U32_MOD
    ensures first % U32_MOD == first && second % U32_MOD == second
    ensures (DUAL_HEADER_SIZE + first) % U32_MOD == DUAL_HEADER_SIZE + first
    ensures (DUAL_HEADER_SIZE + first + second) % U32_MOD == DUAL_HEADER_SIZE + first + second
  {
  }

  /**
   * The exact test is the wrapped one restricted to non-wrapping sums and non-negative
   * rows: whatever it accepts, the wrapped test accepts with the same dimensions and a
   * view ending at the packet's end, and the converse holds when nothing wraps.
   */
  lemma SingleExactRefinesAsWritten(p: Packet)
    ensures DecodeSingle(p).Some? ==>
      && DecodeSingleAsWritten(p).Some?
      && DecodeSingleAsWritten(p).value.End() == |p|
      && var (v, img) := (DecodeSingleAsWritten(p).value, DecodeSingle(p).value);
         v.rows == img.rows && v.cols == img.cols && v.format == img.format && v.step == img.step
    ensures DecodeSingleAsWritten(p).Some? && SingleNoWrap(p) && LoadI32(p, 8) >= 0 ==>
      DecodeSingle(p).Some?
  {
    if |p| > SINGLE_HEADER_SIZE {
      var rows, step := LoadI32(p, 8), LoadU32(p, 12);
      if rows >= 0 {
        var product := rows * step;
        ProductSign(rows, step);
        assert AsUint32(rows) == rows;
        if SINGLE_HEADER_SIZE + product < U32_MOD {
          WrapOfSmall(rows, step);
          SmallSum(SINGLE_HEADER_SIZE, product);
        }
      }
    }
  }

  /** The dual-image counterpart of SingleExactRefinesAsWritten. */
  lemma DualExactRefinesAsWritten(p: Packet)
    ensures DecodeDual(p).Some? ==>
      && DecodeDualAsWritten(p).Some?
      && DecodeDualAsWritten(p).value.1.End() == |p|
      && var (v, w, a, b) := (DecodeDualAsWritten(p).value.0, DecodeDualAsWritten(p).value.1,
                              DecodeDual(p).value.0, DecodeDual(p).value.1);
         && v.rows == a.rows && v.cols == a.cols && v.format == a.format && v.step == a.step
         && w.rows == b.rows && w.cols == b.cols && w.format == b.format && w.step == b.step
         && w.offset == DUAL_HEADER_SIZE + |a.pixels|
    ensures DecodeDualAsWritten(p).Some? && DualNoWrap(p) && LoadI32(p, 8) >= 0 ==>
      DecodeDual(p).Some?
  {
    if |p| > DUAL_HEADER_SIZE {
      var rows, step, step2 := LoadI32(p, 8), LoadU32(p, 12), LoadU32(p, 20);
      if rows >= 0 {
        assert AsUint32(rows) == rows;
        ProductSign(rows, step);
        ProductSign(rows, step2);
        if DUAL_HEADER_SIZE + rows * step + rows * step2 < U32_MOD {
          WrapOfSmallSum(rows * step, rows * step2);
        }
      }
    }
  }

  // ---------------------------------------------------------------------------
  // What the wrapped test lets through

  /**
   * 641 * 6700417 == 2^32 + 1, so `20 + rows * step` wraps to 21: the 21-byte packet
   * declaring 641 rows of 6700417 bytes is accepted as written, while its view ends
   * exactly 2^32 bytes past the packet's end. The exact test refuses it.
   */
  lemma SingleWrapAccepted() returns (p: Packet)
    ensures |p| == 21
    ensures DecodeSingleAsWritten(p) == Some(View(641, 1, 0, 6700417, SINGLE_HEADER_SIZE))
    ensures DecodeSingleAsWritten(p).value.End() == |p| + U32_MOD
    ensures DecodeSingle(p).None?
  {
    var img := Image(641, 1, 0, 6700417, [0]);
    p := EncodeSingle(0, img);
    SingleHeaderRoundTrip(0, img);
    assert ParseSingleHeader(p) == SingleHeader(1, 641, 6700417, 0);
    assert WrappedProduct(641, 6700417) == 1 by {
      assert AsUint32(641) * 6700417 == U32_MOD + 1;
    }
    assert (SINGLE_HEADER_SIZE + 1) % U32_MOD == 21;
  }

  /**
   * The dual-image counterpart: 29 bytes declaring 641 rows of 6700417 and 0 bytes pass
   * the wrapped test; the first view ends 2^32 bytes past the packet's end and the second starts at its end.
   */
  lemma DualWrapAccepted() returns (p: Packet)
    ensures |p| == 29
    ensures DecodeDualAsWritten(p) ==
      Some((View(641, 1, 0, 6700417, DUAL_HEADER_SIZE), View(641, 1, 0, 0, 29)))
    ensures DecodeDualAsWritten(p).value.0.End() == |p| + U32_MOD
    ensures DecodeDual(p).None?
  {
    var a, b := Image(641, 1, 0, 6700417, [0]), Image(641, 1, 0, 0, []);
    p := EncodeDual(0, a, b);
    DualHeaderRoundTrip(0, a, b);
    DualWrapOfHeader(p);
  }

  /** Any 29-byte packet with the dual header of DualWrapAccepted passes the wrapped test only. */
  lemma DualWrapOfHeader(p: Packet)
    requires |p| == 29 && ParseDualHeader(p) == DualHeader(1, 641, 6700417, 0, 0, 0)
    ensures DecodeDualAsWritten(p) ==
      Some((View(641, 1, 0, 6700417, DUAL_HEADER_SIZE), View(641, 1, 0, 0, 29)))
    ensures DecodeDualAsWritten(p).value.0.End() == |p| + U32_MOD
    ensures DecodeDual(p).None?
  {
    assert WrappedProduct(641, 6700417) == 1 by {
      assert AsUint32(641) * 6700417 == U32_MOD + 1;
    }
    assert WrappedProduct(641, 0) == 0;
    assert (DUAL_HEADER_SIZE + 1 + 0) % U32_MOD == 29;
  }


  /** 2^31 zero bytes: the pixels of the negative-rows packets below. */
  function HalfRange(): (s: seq<byte>)
    ensures |s| == 0x8000_0000
  {
    seq(0x8000_0000, _ => 0)
  }

  /**
   * `rows` is converted to unsigned before the length test, so a negative `rows` passes
   * whenever the unsigned sum fits: a packet of 2^31 + 20 bytes declaring -2^31 rows of one
   * byte is accepted as written, with a view of negative rows; the exact test refuses it.
   */
  lemma SingleNegativeRowsAccepted() returns (p: Packet)
    ensures |p| == 0x8000_0000 + SINGLE_HEADER_SIZE
    ensures DecodeSingleAsWritten(p) == Some(View(I32_MIN, 1, 0, 1, SINGLE_HEADER_SIZE))
    ensures DecodeSingle(p).None?
  {
    var img := Image(I32_MIN, 1, 0, 1, HalfRange());
    p := EncodeSingle(0, img);
    SingleHeaderRoundTrip(0, img);
    assert ParseSingleHeader(p) == SingleHeader(1, I32_MIN, 1, 0);
    assert WrappedProduct(I32_MIN, 1) == 0x8000_0000;
    assert (SINGLE_HEADER_SIZE + 0x8000_0000) % U32_MOD == |p|;
  }

  /**
   * The dual-image counterpart: 2^31 + 28 bytes declaring -2^31 rows with strides 1 and 0
   * pass the wrapped test with views of negative rows; the exact test refuses them.
   */
  lemma DualNegativeRowsAccepted() returns (p: Packet)
    ensures |p| == 0x8000_0000 + DUAL_HEADER_SIZE
    ensures DecodeDualAsWritten(p) ==
      Some((View(I32_MIN, 1, 0, 1, DUAL_HEADER_SIZE), View(I32_MIN, 1, 0, 0, |p|)))
    ensures DecodeDual(p).None?
  {
    var a, b := Image(I32_MIN, 1, 0, 1, HalfRange()), Image(I32_MIN, 1, 0, 0, []);
    p := EncodeDual(0, a, b);
    DualHeaderRoundTrip(0, a, b);
    assert ParseDualHeader(p) == DualHeader(1, I32_MIN, 1, 0, 0, 0);
    assert WrappedProduct(I32_MIN, 1) == 0x8000_0000;
    assert WrappedProduct(I32_MIN, 0) == 0;
    assert (DUAL_HEADER_SIZE + 0x8000_0000) % U32_MOD == |p|;
    assert (DUAL_HEADER_SIZE + 0x8000_0000 + 0) % U32_MOD == |p|;
  }
}

=== FILE: readers.dfy ===
/**
 * The camera-type probe and the three frame readers of the image client.
 *
 * A frame on the transport is two packets: a probe packet whose first four bytes
 * are the camera type, then a data packet in the single- or dual-image layout.
 * A reader checks the notification's message id and that bytes are waiting, then
 * repeatedly probes, checks the type against the ones it accepts and decodes the
 * data packet; with `subscribeLatest` set it keeps going while packets remain, so
 * the frame it returns is the newest one queued.
 */
module FrameReaders {
  import opened Bytes
  import opened Wrappers
  import opened Transport
  import opened Layout
  import opened Envelope

  /** Which reader: `readMonoImage`, `readStereoImage` or `readKinectImage`. */
  datatype Modality = Mono | Stereo | Kinect

  /** The `PxSHM::CameraType` enumerants each reader lists. */
  function ListedTypes(proto: Protocol, m: Modality): set<uint32> {
    match m
    case Mono => {proto.mono8, proto.mono24}
    case Stereo => {proto.stereo8, proto.stereo24}
    case Kinect => {proto.kinect}
  }

  /** The reader's comparisons against the camera type: it accepts exactly the enumerants it lists. */
  predicate Accepts(proto: Protocol, m: Modality, tag: uint32): (b: bool)
    ensures b <==> tag in ListedTypes(proto, m)
  {
    match m
    case Mono => tag == proto.mono8 || tag == proto.mono24
    case Stereo => tag == proto.stereo8 || tag == proto.stereo24
    case Kinect => tag == proto.kinect
  }

  /** What a reader hands back: one image (mono) or a pair (stereo, bayer + depth). */
  datatype Frame = Single(image: Image) | Dual(first: Image, second: Image)

  /** The client's state that the readers use: the `subscribeLatest` flag and the transport. */
  datatype Client = Client(subscribeLatest: bool, shm: Channel)

  /**
   * `readCameraType`: reads one packet and, if it holds at least four bytes, yields
   * its first four as the camera type, whatever their value.
   */
  function ReadCameraType(shm: Channel): (r: (Option<uint32>, Channel))
    ensures r.1 == shm.ReadDataPacket().1
    ensures shm.BytesWaiting() ==> r.1.queue == shm.queue[1..]
    ensures r.0.Some? <==> shm.BytesWaiting() && |shm.queue[0]| >= 4
    ensures r.0.Some? ==> r.0.value == LoadU32(shm.queue[0], 0)
  {
    var (packet, rest) := shm.ReadDataPacket();
    if |packet| < 4 then (None, rest) else (Some(LoadU32(packet, 0)), rest)
  }

  /** The layout a reader decodes its data packet with. */
  function Decode(m: Modality, packet: Packet): (r: Option<Frame>)
    ensures r.Some? ==> (r.value.Single? <==> m == Mono)
    ensures m == Mono ==> (r.Some? <==> DecodeSingle(packet).Some?)
    ensures m != Mono ==> (r.Some? <==> DecodeDual(packet).Some?)
    ensures r.Some? && m == Mono ==> r.value == Single(DecodeSingle(packet).value)
    ensures r.Some? && m != Mono ==> r.value == Dual(DecodeDual(packet).value.0, DecodeDual(packet).value.1)
  {
    if m == Mono then
      match DecodeSingle(packet)
      case None => None
      case Some(img) => Some(Single(img))
    else
      match DecodeDual(packet)
      case None => None
      case Some((a, b)) => Some(Dual(a, b))
  }

  /** A probe packet and a data packet form a frame this reader accepts and decodes. */
  predicate FrameOk(proto: Protocol, m: Modality, probe: Packet, data: Packet) {
    |probe| >= 4 && Accepts(proto, m, LoadU32(probe, 0)) && Decode(m, data).Some?
  }

  /**
   * The body of the do-while loop, repeated: probe, filter, decode, and go round
   * again while packets remain and `latest` is set. Any failure ends the call with
   * no frame; the transport has then lost exactly the packets read so far.
   */
  function Drain(proto: Protocol, m: Modality, latest: bool, shm: Channel): (r: (Option<Frame>, Channel))
    requires shm.BytesWaiting()
    ensures |r.1.queue| < |shm.queue|
    ensures r.1.queue == shm.queue[|shm.queue| - |r.1.queue|..]
    ensures r.0.Some? ==> (r.0.value.Single? <==> m == Mono)
    ensures r.0.Some? && latest ==> r.1.queue == []
    ensures r.0.Some? && !latest ==>
      |shm.queue| >= 2 && r.1.queue == shm.queue[2..] && r.0 == Decode(m, shm.queue[1])
    decreases |shm.queue|
  {
    var (tag, afterProbe) := ReadCameraType(shm);
    if tag.None? || !Accepts(proto, m, tag.value) then (None, afterProbe)
    else
      var (packet, afterData) := afterProbe.ReadDataPacket();
      var frame := Decode(m, packet);
      if frame.None? then (None, afterData)
      else if afterData.BytesWaiting() && latest then Drain(proto, m, latest, afterData)
      else (frame, afterData)
  }

  /**
   * A frame reader: nothing happens unless the message is an image notification and
   * packets are waiting; otherwise the drain loop runs on the client's transport.
   */
  function ReadFrame(proto: Protocol, m: Modality, client: Client, msg: Message): (r: (Option<Frame>, Client))
    ensures !IsImageAvailable(proto, msg) ==> r == (None, client)
    ensures !client.shm.BytesWaiting() ==> r == (None, client)
    ensures r.1.subscribeLatest == client.subscribeLatest
    ensures r.0.Some? ==> (r.0.value.Single? <==> m == Mono)
  {
    if !IsImageAvailable(proto, msg) || !client.shm.BytesWaiting() then (None, client)
    else
      var (frame, shm) := Drain(proto, m, client.subscribeLatest, client.shm);
      (frame, client.(shm := shm))
  }

  /** `readMonoImage`. */
  function ReadMonoImage(proto: Protocol, client: Client, msg: Message): (r: (Option<Image>, Client))
    ensures var (frame, after) := ReadFrame(proto, Mono, client, msg);
      && r.1 == after
      && (r.0.Some? <==> frame.Some?)
      && (r.0.Some? ==> frame.value == Single(r.0.value))
  {
    var (frame, after) := ReadFrame(proto, Mono, client, msg);
    if frame.None? then (None, after) else (Some(frame.value.image), after)
  }

  /** `readStereoImage`: the left and right images. */
  function ReadStereoImage(proto: Protocol, client: Client, msg: Message): (r: (Option<(Image, Image)>, Client))
    ensures var (frame, after) := ReadFrame(proto, Stereo, client, msg);
      && r.1 == after
      && (r.0.Some? <==> frame.Some?)
      && (r.0.Some? ==> frame.value == Dual(r.0.value.0, r.0.value.1))
  {
    var (frame, after) := ReadFrame(proto, Stereo, client, msg);
    if frame.None? then (None, after) else (Some((frame.value.first, frame.value.second)), after)
  }

  /** `readKinectImage`: the Bayer image and the depth image. */
  function ReadKinectImage(proto: Protocol, client: Client, msg: Message): (r: (Option<(Image, Image)>, Client))
    ensures var (frame, after) := ReadFrame(proto, Kinect, client, msg);
      && r.1 == after
      && (r.0.Some? <==> frame.Some?)
      && (r.0.Some? ==> frame.value == Dual(r.0.value.0, r.0.value.1))
  {
    var (frame, after) := ReadFrame(proto, Kinect, client, msg);
    if frame.None? then (None, after) else (Some((frame.value.first, frame.value.second)), after)
  }

  /**
   * The reader as the source writes it: early returns, then a do-while loop over the
   * transport. It computes the same result as ReadFrame.
   */
  method ReadFrameLoop(proto: Protocol, m: Modality, client: Client, msg: Message)
    returns (frame: Option<Frame>, after: Client)
    ensures (frame, after) == ReadFrame(proto, m, client, msg)
  {
    if !IsImageAvailable(proto, msg) {
      return None, client;
    }
    if !client.shm.BytesWaiting() {
      return None, client;
    }
    var shm := client.shm;
    while true
      invariant shm.BytesWaiting()
      invariant Drain(proto, m, client.subscribeLatest, shm) == Drain(proto, m, client.subscribeLatest, client.shm)
      decreases |shm.queue|
    {
      var (tag, afterProbe) := ReadCameraType(shm);
      if tag.None? {
        return None, client.(shm := afterProbe);
      }
      if !Accepts(proto, m, tag.value) {
        return None, client.(shm := afterProbe);
      }
      var (packet, afterData) := afterProbe.ReadDataPacket();
      var decoded := Decode(m, packet);
      if decoded.None? {
        return None, client.(shm := afterData);
      }
      if !(afterData.BytesWaiting() && client.subscribeLatest) {
        return decoded, client.(shm := afterData);
      }
      shm := afterData;
    }
  }
}

=== FILE: readers_properties.dfy ===
/**
 * Properties of the frame readers: the guards, the camera-type filter, and what
 * one call returns and consumes with and without `subscribeLatest`, stated against
 * a description of the queue as a sequence of (probe, data) packet pairs.
 */
module FrameReaderProperties {
  import opened Bytes
  import opened Wrappers
  import opened Transport
  import opened LayoutProperties
  import opened Envelope
  import opened FrameReaders

  /** The queue is a whole number of frames, each accepted and decodable by this reader. */
  predicate WellFramed(proto: Protocol, m: Modality, q: seq<Packet>)
    decreases |q|
  {
    |q| == 0 || (|q| >= 2 && FrameOk(proto, m, q[0], q[1]) && WellFramed(proto, m, q[2..]))
  }

  // ---------------------------------------------------------------------------
  // The camera-type filter

  /** With distinct enumerants, no camera type is accepted by two different readers. */
  lemma ModalitiesExclusive(proto: Protocol, m: Modality, m': Modality, tag: uint32)
    requires proto.DistinctTypes()
    requires m != m'
    requires Accepts(proto, m, tag)
    ensures !Accepts(proto, m', tag)
  {
  }

  /**
   * A probe packet whose camera type the reader does not accept makes the call fail
   * having consumed that packet and nothing else.
   */
  lemma ForeignTypeRejected(proto: Protocol, m: Modality, client: Client, msg: Message)
    requires IsImageAvailable(proto, msg)
    requires client.shm.BytesWaiting()
    requires |client.shm.queue[0]| >= 4 && !Accepts(proto, m, LoadU32(client.shm.queue[0], 0))
    ensures ReadFrame(proto, m, client, msg) == (None, client.(shm := Channel(client.shm.queue[1..])))
  {
  }

  /**
   * In particular a stereo reader handed a mono or Kinect frame, a Kinect reader handed
   * a mono or stereo frame, and a mono reader handed a stereo or Kinect frame all fail
   * after the probe packet.
   */
  lemma OtherReadersTypeRejected(proto: Protocol, m: Modality, m': Modality, client: Client, msg: Message)
    requires proto.DistinctTypes() && m != m'
    requires IsImageAvailable(proto, msg)
    requires client.shm.BytesWaiting()
    requires |client.shm.queue[0]| >= 4 && Accepts(proto, m', LoadU32(client.shm.queue[0], 0))
    ensures ReadFrame(proto, m, client, msg) == (None, client.(shm := Channel(client.shm.queue[1..])))
  {
    ModalitiesExclusive(proto, m', m, LoadU32(client.shm.queue[0], 0));
    ForeignTypeRejected(proto, m, client, msg);
  }

  // ---------------------------------------------------------------------------
  // One frame per call

  /**
   * Without `subscribeLatest` a call succeeds exactly when the first two packets form
   * an acceptable frame; it then returns that frame and leaves the rest of the queue.
   */
  lemma ReadOnce(proto: Protocol, m: Modality, client: Client, msg: Message)
    requires IsImageAvailable(proto, msg)
    requires !client.subscribeLatest
    ensures var (frame, after) := ReadFrame(proto, m, client, msg);
      var q := client.shm.queue;
      && (frame.Some? <==> |q| >= 2 && FrameOk(proto, m, q[0], q[1]))
      && (frame.Some? ==> frame == Decode(m, q[1]) && after.shm.queue == q[2..])
  {
  }

  // ---------------------------------------------------------------------------
  // Drain to the newest frame

  /**
   * With `latest` set the drain loop succeeds exactly when the whole queue is a
   * sequence of acceptable frames; it then returns the last one and empties the queue.
   */
  lemma {:induction false} DrainLatest(proto: Protocol, m: Modality, shm: Channel)
    requires shm.BytesWaiting()
    ensures var (frame, after) := Drain(proto, m, true, shm);
      var q := shm.queue;
      && (frame.Some? <==> WellFramed(proto, m, q))
      && (frame.Some? ==> frame == Decode(m, q[|q| - 1]) && after.queue == [])
    decreases |shm.queue|
  {
    var q := shm.queue;
    if !(|q| >= 2 && FrameOk(proto, m, q[0], q[1])) {
      DrainRefused(proto, m, shm);
    } else if |q| == 2 {
      DrainLast(proto, m, shm);
    } else {
      var rest := Channel(q[2..]);
      DrainLatest(proto, m, rest);
      DrainLatestStep(proto, m, shm);
    }
  }

  /** DrainLatest's conclusion for one channel. */
  predicate LatestOutcome(proto: Protocol, m: Modality, shm: Channel)
    requires shm.BytesWaiting()
  {
    var (frame, after) := Drain(proto, m, true, shm);
    var q := shm.queue;
    && (frame.Some? <==> WellFramed(proto, m, q))
    && (frame.Some? ==> frame == Decode(m, q[|q| - 1]) && after.queue == [])
  }

  /** DrainLatest's inductive step: the conclusion for the rest gives it for the whole queue. */
  lemma DrainLatestStep(proto: Protocol, m: Modality, shm: Channel)
    requires |shm.queue| > 2 && FrameOk(proto, m, shm.queue[0], shm.queue[1])
    requires LatestOutcome(proto, m, Channel(shm.queue[2..]))
    ensures LatestOutcome(proto, m, shm)
  {
    var q := shm.queue;
    var rest := Channel(q[2..]);
    DrainStep(proto, m, shm);
    assert WellFramed(proto, m, q) == WellFramed(proto, m, rest.queue);
    assert rest.queue[|rest.queue| - 1] == q[|q| - 1];
  }

  /** A queue that does not start with an acceptable frame makes the draining loop fail. */
  lemma DrainRefused(proto: Protocol, m: Modality, shm: Channel)
    requires shm.BytesWaiting()
    requires !(|shm.queue| >= 2 && FrameOk(proto, m, shm.queue[0], shm.queue[1]))
    ensures Drain(proto, m, true, shm).0.None?
    ensures !WellFramed(proto, m, shm.queue)
  {
  }

  /** A queue holding exactly one acceptable frame drains to that frame and nothing. */
  lemma DrainLast(proto: Protocol, m: Modality, shm: Channel)
    requires |shm.queue| == 2 && FrameOk(proto, m, shm.queue[0], shm.queue[1])
    ensures Drain(proto, m, true, shm) == (Decode(m, shm.queue[1]), Channel([]))
    ensures WellFramed(proto, m, shm.queue)
  {
    assert WellFramed(proto, m, shm.queue[2..]);
  }

  /** An acceptable frame followed by more packets sends the draining loop round again on the rest. */
  lemma DrainStep(proto: Protocol, m: Modality, shm: Channel)
    requires |shm.queue| > 2 && FrameOk(proto, m, shm.queue[0], shm.queue[1])
    ensures Drain(proto, m, true, shm) == Drain(proto, m, true, Channel(shm.queue[2..]))
  {
    var (tag, afterProbe) := ReadCameraType(shm);
    assert afterProbe.queue == shm.queue[1..];
    var (packet, afterData) := afterProbe.ReadDataPacket();
    assert packet == shm.queue[1] && afterData.queue == shm.queue[2..];
  }

  /**
   * A reader in latest-only mode succeeds exactly when everything queued is a sequence
   * of acceptable frames, and then returns the newest frame and leaves nothing queued.
   */
  lemma ReadLatest(proto: Protocol, m: Modality, client: Client, msg: Message)
    requires IsImageAvailable(proto, msg)
    requires client.subscribeLatest
    ensures var (frame, after) := ReadFrame(proto, m, client, msg);
      var q := client.shm.queue;
      && (frame.Some? <==> |q| >= 2 && WellFramed(proto, m, q))
      && (frame.Some? ==> frame == Decode(m, q[|q| - 1]) && after.shm.queue == [])
  {
    if client.shm.BytesWaiting() {
      DrainLatest(proto, m, client.shm);
    }
  }

  // ---------------------------------------------------------------------------
  // Frames published by a producer

  /** A frame that fits its layout. */
  predicate Encodable(f: Frame) {
    match f
    case Single(img) => SingleEncodable(img)
    case Dual(a, b) => DualEncodable(a, b)
  }

  /** A frame the producer can publish for this reader: an accepted tag and an encodable image or pair. */
  predicate Publishable(proto: Protocol, m: Modality, tag: uint32, f: Frame) {
    && Accepts(proto, m, tag)
    && (f.Single? <==> m == Mono)
    && Encodable(f)
  }

  predicate AllPublishable(proto: Protocol, m: Modality, frames: seq<(uint32, Frame)>) {
    forall i | 0 <= i < |frames| :: Publishable(proto, m, frames[i].0, frames[i].1)
  }

  /** The producer's data packet for a frame. */
  function EncodeFrame(tag: uint32, f: Frame): (p: Packet)
    requires Encodable(f)
  {
    match f
    case Single(img) => EncodeSingle(tag, img)
    case Dual(a, b) => EncodeDual(tag, a, b)
  }

  /** The packets the producer queues for a sequence of frames: for each, a probe packet then a data packet. */
  function Publish(proto: Protocol, m: Modality, frames: seq<(uint32, Frame)>): (q: seq<Packet>)
    requires AllPublishable(proto, m, frames)
    ensures |q| == 2 * |frames|
  {
    if frames == [] then []
    else
      assert Publishable(proto, m, frames[0].0, frames[0].1);
      assert AllPublishable(proto, m, frames[1..]) by {
        forall i | 0 <= i < |frames| - 1 ensures Publishable(proto, m, frames[1..][i].0, frames[1..][i].1) {
          assert frames[1..][i] == frames[i + 1];
        }
      }
      [StoreU32(frames[0].0), EncodeFrame(frames[0].0, frames[0].1)] + Publish(proto, m, frames[1..])
  }

  /** A reader decodes a published data packet back to the frame. */
  lemma DecodePublished(proto: Protocol, m: Modality, tag: uint32, f: Frame)
    requires Publishable(proto, m, tag, f)
    ensures Decode(m, EncodeFrame(tag, f)) == Some(f)
    ensures FrameOk(proto, m, StoreU32(tag), EncodeFrame(tag, f))
  {
    match f {
      case Single(img) => SingleRoundTrip(tag, img);
      case Dual(a, b) => DualRoundTrip(tag, a, b);
    }
    LoadStoreU32([], tag, []);
    assert [] + StoreU32(tag) + [] == StoreU32(tag);
  }

  /** The first published frame is an acceptable (probe, data) pair, followed by the rest published. */
  lemma PublishHead(proto: Protocol, m: Modality, frames: seq<(uint32, Frame)>)
    requires AllPublishable(proto, m, frames) && frames != []
    ensures var q := Publish(proto, m, frames);
      && FrameOk(proto, m, q[0], q[1])
      && Decode(m, q[1]) == Some(frames[0].1)
      && q[2..] == Publish(proto, m, frames[1..])
  {
    var (tag, f) := frames[0];
    assert Publishable(proto, m, tag, f);
    DecodePublished(proto, m, tag, f);
  }

  /** Published frames form a well-framed queue. */
  lemma {:induction false} PublishedWellFramed(proto: Protocol, m: Modality, frames: seq<(uint32, Frame)>)
    requires AllPublishable(proto, m, frames)
    ensures WellFramed(proto, m, Publish(proto, m, frames))
  {
    if frames != [] {
      PublishHead(proto, m, frames);
      PublishedWellFramed(proto, m, frames[1..]);
    }
  }

  /** The last data packet of published frames decodes to the last frame. */
  lemma {:induction false} PublishedLast(proto: Protocol, m: Modality, frames: seq<(uint32, Frame)>)
    requires AllPublishable(proto, m, frames) && frames != []
    ensures var q := Publish(proto, m, frames);
      Decode(m, q[|q| - 1]) == Some(frames[|frames| - 1].1)
  {
    var q := Publish(proto, m, frames);
    var rest := frames[1..];
    PublishHead(proto, m, frames);
    if rest != [] {
      var tail := Publish(proto, m, rest);
      PublishedLast(proto, m, rest);
      assert q[|q| - 1] == tail[|tail| - 1];
      assert rest[|rest| - 1] == frames[|frames| - 1];
    }
  }

  /**
   * With `subscribeLatest`, a reader facing N published frames returns the N-th,
   * having consumed all of them.
   */
  lemma LatestReturnsNewest(proto: Protocol, m: Modality, msg: Message, frames: seq<(uint32, Frame)>)
    requires IsImageAvailable(proto, msg)
    requires |frames| > 0
    requires AllPublishable(proto, m, frames)
    ensures ReadFrame(proto, m, Client(true, Channel(Publish(proto, m, frames))), msg) ==
      (Some(frames[|frames| - 1].1), Client(true, Channel([])))
  {
    var client := Client(true, Channel(Publish(proto, m, frames)));
    PublishedWellFramed(proto, m, frames);
    PublishedLast(proto, m, frames);
    LatestOfWellFramed(proto, m, client, msg, frames[|frames| - 1].1);
  }

  /** ReadLatest, specialised to a queue whose last packet is known to decode to `f`. */
  lemma LatestOfWellFramed(proto: Protocol, m: Modality, client: Client, msg: Message, f: Frame)
    requires IsImageAvailable(proto, msg)
    requires client.subscribeLatest
    requires |client.shm.queue| >= 2 && WellFramed(proto, m, client.shm.queue)
    requires Decode(m, client.shm.queue[|client.shm.queue| - 1]) == Some(f)
    ensures ReadFrame(proto, m, client, msg) == (Some(f), client.(shm := Channel([])))
  {
    ReadLatest(proto, m, client, msg);
  }

  /**
   * Without `subscribeLatest`, a reader facing N published frames returns the first
   * and leaves the other N-1 queued.
   */
  lemma OnceReturnsOldest(proto: Protocol, m: Modality, msg: Message, frames: seq<(uint32, Frame)>)
    requires IsImageAvailable(proto, msg)
    requires |frames| > 0
    requires AllPublishable(proto, m, frames)
    ensures ReadFrame(proto, m, Client(false, Channel(Publish(proto, m, frames))), msg) ==
      (Some(frames[0].1), Client(false, Channel(Publish(proto, m, frames[1..]))))
  {
    var client := Client(false, Channel(Publish(proto, m, frames)));
    PublishHead(proto, m, frames);
    ReadOnce(proto, m, client, msg);
  }
}

=== FILE: transport.dfy ===
/**
 * The shared-memory transport as the image client sees it: a FIFO of packets.
 * `bytesWaiting()` asks whether the queue is non-empty and `readDataPacket`
 * copies the oldest packet into the client's scratch buffer and removes it.
 * The ring buffer, its synchronisation with the producer and its capacity are
 * not part of this model.
 */
module Transport {
  import opened Bytes

  /** One packet; its length is reported to the client as a `uint32_t`. */
  type Packet = p: seq<byte> | |p| < 0x1_0000_0000

  datatype Channel = Channel(queue: seq<Packet>) {

    /** `PxSHM::bytesWaiting()`. */
    predicate BytesWaiting() {
      queue != []
    }

    /**
     * `PxSHM::readDataPacket`: the oldest packet and the channel without it.
     * Reading an empty channel yields an empty packet (length 0) and leaves it empty.
     */
    function ReadDataPacket(): (r: (Packet, Channel))
      ensures BytesWaiting() ==> r.0 == queue[0] && r.1.queue == queue[1..]
      ensures !BytesWaiting() ==> r.0 == [] && r.1 == this
      ensures |r.1.queue| == if BytesWaiting() then |queue| - 1 else 0
    {
      if queue == [] then ([], this) else (queue[0], Channel(queue[1..]))
    }
  }
}

=== FILE: wrappers.dfy ===
/** Optional values: the model's stand-in for the source's boolean success flag plus output parameter. */
module Wrappers {

  datatype Option<+T> = None | Some(value: T)
}
